=== FILE: README.md ===
# Church attendance: the attendance store, the checklist, and the sample dates

This project models the attendance core of a small church membership
application. The application has a Flask/SQLite server (`app.py`), a browser
admin panel (`static/app.js`) and a sample-data script (`init_sample_data.py`).
The model has three parts.

- **The server's attendance store.** The believer, service and attendance tables
  are immutable sequences in row order. Every endpoint of the attendance core is
  a pure function from the database before the request to the response and the
  database after it. The model covers:
  - create, which refuses a second record for the same (service, believer) pair;
  - delete by id;
  - the filtered query;
  - the cascading deletes of services and believers;
  - the active-believer listing;
  - a service's `attendance_count`;
  - a believer's statistics.

  The central invariant is pair uniqueness: at most one record per
  (service, believer). The model proves that it survives any sequence of
  requests handled one after another.
- **The attendance checklist of the admin panel.** The page is abstract data: a
  panel of rows (believer id, checkbox, highlight) and a summary (present,
  absent, total, shown). Loading derives the page from a roster and an
  attendance result. A checkbox change is one atomic step, given how each HTTP
  request ended. The module `Reconciler` puts the page and the database together:
  - every request is delivered, refused by the server without a commit (a
    non-2xx answer such as a 500), lost before the server, or lost after the
    server committed;
  - with every request delivered, a load of a non-empty roster makes the page
    truthful, and every genuine toggle keeps it truthful;
  - a refused create or delete is rolled back on the page;
  - the paths where page and database part ways are stated as the code behaves.
- **The sample-data script.** Service dates are integer day numbers, with
  Python's `weekday()` as `(ordinal + 6) % 7`. The model proves the Sunday and
  Wednesday dates and the "past only" filter. A loop inserts one record per
  picked believer per service, and the model proves it keeps pair uniqueness.

Modules: `Wrappers` (Option, Result), `Seqs` (order-preserving filter, pairwise
properties), `Store`, `Checklist`, `ServicesPage`, `Reconciler`, `Seed`.

The checklist's failure paths differ from a plain optimistic-update design;
the model follows the code:
- A create or delete whose request throws does not revert the checkbox. Only a
  non-2xx response does. The `catch` only raises an alert.
- The present counter is the number of distinct believer ids in the service's
  attendance. It is not the number of checked rows. Inactive believers with
  records are counted, so `absent` can even be negative
  (`Reconciler.PresentCountsBelieversOutsideRoster`).
- After a toggle, `absent` is recomputed as `total − present`. It is not
  adjusted separately.

## Model

| member | source | states |
|---|---|---|
| `Store.Query` | app.py:209-221 | the result holds exactly the records that satisfy every supplied filter; an absent filter restricts nothing |
| `Store.QueryUnfiltered` | app.py:214-220 | with neither `service_id` nor `believer_id` the whole attendance table is returned |
| `Store.QueryAppend` | app.py:214-220 | the query keeps table order: it distributes over any split of the table |
| `Store.QueryPairAtMostOne` | app.py:223-243 | when pairs are unique, a (service, believer) query returns at most one record |
| `Store.QueryPairIsTheRecord` | app.py:223-243 | when pairs are unique, the (service, believer) query is non-empty exactly when the pair has a record, and it is then that one record |
| `Store.NextId` | app.py:59 | a new row's id is positive and differs from every id in use |
| `Store.CreateAttendance` | app.py:223-243 | 400 with the database unchanged exactly when the pair already has a record; otherwise the table gains exactly one record with the given believer and service and a fresh id, appended, and nothing else changes |
| `Store.WithoutIdLength` | app.py:245-250 | removing an id that occurs once shortens the table by exactly one |
| `Store.DeleteAttendance` | app.py:245-250 | 404 with the database unchanged exactly when no record has the id; otherwise exactly the records without that id remain, and with unique ids the table shrinks by one |
| `Store.Count` | app.py:48 | counting records one by one gives the size of the corresponding filtered query |
| `Store.ServiceToDict` | app.py:47-56 | `attendance_count` equals the number of attendance records that reference the service |
| `Store.CreateBumpsCount` | app.py:236-243 | a successful create raises its service's `attendance_count` by one and no other service's |
| `Store.DeleteService` | app.py:201-206 | 404 exactly when the id is unknown; otherwise the service goes, together with every record that references it and no other record, and believers stay |
| `Store.DeleteBeliever` | app.py:143-148 | 404 exactly when the id is unknown; otherwise the believer goes, together with every record that references them and no other record, and services stay |
| `Store.ActiveBelievers` | app.py:84-87 | the roster holds exactly the active believers, and distinct ids stay distinct |
| `Store.BelieverStats` | app.py:89-111 | 404 exactly when the believer is unknown; `total` counts all of their records; with unique service ids, `sunday` and `midweek` count their records whose service has that type, and `sunday + midweek <= total` |
| `Store.JoinedRowsIsLookup` | app.py:96-103 | with unique service ids the inner join pairs a record with at most its own service's row, and only when that row's type matches |
| `Store.JoinCountIsTypedRecords` | app.py:96-103 | the join-and-count query equals the number of the believer's records whose service has that type |
| `Store.TypedRecordsBounded` | app.py:95-109 | Sunday records plus midweek records never exceed all of the believer's records |
| `Store.HandlePreservesWellFormed` | app.py:223-250 | each create, delete, service delete or believer delete keeps ids unique and at most one record per pair |
| `Store.ReplayPreservesWellFormed` | app.py:223-243 | if records enter only through `create_attendance`, no two records share a pair after any sequence of requests |
| `Checklist.LoadChecklist` | static/app.js:393-444 | no service: prompt shown, summary hidden; a throwing request: page unchanged; empty roster: "no believers", summary hidden; otherwise one row per roster believer in roster order, checked and highlighted exactly when the attendance result names that believer, total = roster size, present = number of distinct attending ids, present + absent = total |
| `Checklist.ShowSummary` | static/app.js:437-444 | the summary shows the given total and present counts, absent = total − present, and the summary becomes visible |
| `Checklist.UpdateSummaryCounts` | static/app.js:493-503 | present moves by `change`, total and visibility stay, present + absent = total afterwards, and when the counters balanced before, absent moves by `-change` |
| `Checklist.FindRow` | static/app.js:462 | the row found is the first one that carries the believer's id; none is found only when no row carries it |
| `Checklist.Click` | static/app.js:420-423 | the believer's checkbox takes the user's new position; nothing else changes |
| `Checklist.MarkPresent` | static/app.js:448-467 | 2xx: the row is highlighted and present goes up by one, with the counters balanced; other status: the box is unchecked and the counters stay; exception or missing row: the page is unchanged; only that row is touched, and the total and the summary's visibility never change |
| `Checklist.MarkAbsent` | static/app.js:468-490 | empty lookup, exception or missing row: the page is unchanged; 2xx: the highlight is cleared and present goes down by one, with the counters balanced; other status: the box is re-checked and the counters stay; the total and the summary's visibility never change |
| `ServicesPage.FilterServices` | static/app.js:242-246 | tab `all` shows every service; any other tab shows exactly the services of that type |
| `ServicesPage.FilterServicesKeepsOrder` | static/app.js:243-246 | the filter distributes over concatenation and keeps a single service exactly when the tab admits it, so it is the order-preserving filter |
| `ServicesPage.DisplayServices` | static/app.js:239-268 | a non-empty filtered listing is shown as is; otherwise the "none scheduled" message when the tab is `all` and the list is empty, and the "none of this type" message exactly when no service has the tab's type |
| `Reconciler.LoadStep` | static/app.js:400-408 | loading the checklist leaves the database unchanged |
| `Reconciler.Post` | static/app.js:450-459 | the client sees an exception exactly when the request or its response is lost; a delivered create is refused exactly when the pair has a record, and a create the server refuses reports non-2xx without changing the database; when the request reached the server's commit and the pair was new, exactly one record for the pair with an unused id is appended and the old records stay; otherwise the database is unchanged |
| `Reconciler.Lookup` | static/app.js:470-471 | the lookup answers exactly when delivered, and then holds exactly the records of this service and believer |
| `Reconciler.Delete` | static/app.js:474-476 | the client sees an exception exactly when the request or its response is lost; a delivered delete fails exactly when the id is unknown, and a refused delete reports non-2xx; a delete that does not reach the server's commit changes nothing; once it commits, exactly the records with other ids remain; the other tables never change |
| `Reconciler.ToggleStep` | static/app.js:446-491 | whatever the network does, the total and the summary's visibility stay, balanced counters stay balanced, only the toggled row can change, and the database changes by at most one create of this pair or one delete of a record of this pair |
| `Reconciler.AttendedIdsArePairs` | static/app.js:408 | a believer id is in the attended set of the service's query exactly when the pair has a record |
| `Reconciler.LoadEstablishesConsistency` | static/app.js:400-430 | a delivered load of a non-empty roster gives a truthful page: distinct rows, each checked and highlighted exactly when its pair has a record, present = number of distinct attending believers, present + absent = total = rows |
| `Reconciler.LoadIsIdempotent` | static/app.js:393-435 | loading the same service twice gives the same page as loading it once |
| `Reconciler.ToggleKeepsConsistency` | static/app.js:446-491 | with every request delivered, a genuine checkbox change keeps the page truthful and the database well formed; afterwards the pair has a record exactly when the box was checked, and no other believer's pair changes |
| `Reconciler.UncheckRecheckRoundTrip` | static/app.js:446-491 | unchecking and re-checking a present believer with every request delivered restores the page exactly, and the pair has exactly one record |
| `Reconciler.SamePairsSameView` | static/app.js:408-430 | two truthful pages over the same rows, for databases that agree on the service's pairs, are identical |
| `Reconciler.DuplicateCreateUnchecks` | static/app.js:461-467 | checking a box whose pair already has a record gets a 400; the box is unchecked with the counters unchanged while the record stays |
| `Reconciler.ExceptionKeepsUserPosition` | static/app.js:487-490 | when a request throws, the box keeps the user's new position, and the highlight and counters are unchanged |
| `Reconciler.RefusedToggleRestores` | static/app.js:461-484 | from a truthful page, a genuine toggle whose create or delete the server refuses leaves the database and the page exactly as before: the non-2xx branch puts the box back, so the page stays truthful |
| `Reconciler.CommittedCreateLostDiverges` | static/app.js:450-467 | a committed create whose response is lost leaves a checked, unhighlighted row, unchanged counters and a page that is no longer truthful |
| `Reconciler.UncheckWithoutRecordSendsNoDelete` | static/app.js:470-473 | unchecking a believer with no record sends no delete; the database, counters and highlight stay and the box stays unchecked |
| `Reconciler.PresentCountsBelieversOutsideRoster` | static/app.js:408-430 | inactive believers' records count as present: one unchecked row shows present 2, absent -1, total 1 |
| `Seed.SundayDate` | init_sample_data.py:61-62 | each Sunday-service date is a Sunday in the week-long window just before `today − 7·week`, so strictly before today |
| `Seed.SundayDatesSpacing` | init_sample_data.py:61-62 | the twelve Sunday dates are Sundays before today, consecutive ones exactly 7 days apart, pairwise distinct |
| `Seed.MidweekCandidate` | init_sample_data.py:73-74 | each candidate midweek date is a Wednesday within four days before to two days after `today − 7·week` |
| `Seed.MidweekDates` | init_sample_data.py:73-75 | every kept midweek date is a Wednesday on or before today |
| `Seed.MidweekDatesDropWeekZero` | init_sample_data.py:73-75 | week 0 lies in the future exactly on Monday and Tuesday, and only it is dropped, so 11 or 12 midweek services remain |
| `Seed.SeedServices` | init_sample_data.py:55-86 | the Sunday services come first, at 10:00 on the twelve Sunday dates in week order; the midweek ones follow, at 19:00 on exactly the kept midweek dates in order; all are numbered 1..n, with the right type and weekday and no date after today |
| `Seed.SeedServicesDatesDescend` | init_sample_data.py:60-83 | within each service type the seeded dates strictly decrease, most recent first, so no two services of one type share a date |
| `Seed.SeedAttendance` | init_sample_data.py:88-104 | with distinct services and duplicate-free picks: one record per picked believer per service and no other pair, ids 1..n, count = total picks, pairs unique |
| `Seed.SeedDatabase` | init_sample_data.py:10-107 | the seeded database is well formed, pair uniqueness included, and each service's attendees are exactly its picks |

## Left out

- Page rendering: HTML markup, modals, navigation, the dashboard and report
  pages and `formatDate`. The page is modelled as rows and counters.
- Network and timing: `fetch`, JSON decoding and async sequencing. Each request
  has an explicit `Link` outcome instead. Overlapping toggles of the same
  believer are not modelled, because the code does not sequence them.
- Concurrent server requests: pair uniqueness holds when requests are handled
  one after another. `create_attendance` checks for the pair and inserts in
  separate steps, and no unique constraint covers (believer, service). Two
  overlapping requests for one pair on the threaded development server can
  therefore both insert. The server does not guarantee uniqueness then.
- Server framework: Flask routing, static files, sessions, `strptime`, and the
  conversion of query-string text to numbers. A query filter is `Option<int>`.
  An absent or empty argument is `None`.
- Endpoints outside the attendance core: creating and updating believers and
  services, listing services (`get_services`), `get_service`, the dashboard statistics (they use
  floating point), and the attendance-trends and top-attendees SQL queries.
- Columns the core never reads: email, phone, address, join date, service
  description, `attended_at` and `notes`.
- Store.NextId: does not model SQLite's random rowid choice once the largest
  rowid reaches 2^63 − 1.
- Store.BelieverStats: states the typed counts and their bound only when
  service ids are distinct. The primary key guarantees this.
- Checklist.UpdateSummaryCounts: counters are integers. The page stores them as
  text and reads them back with `parseInt`, and the NaN case is not modelled.
- Seed.SundayDate: day numbers are unbounded. Python raises `OverflowError`
  outside years 1 to 9999.
- Seed.SeedAttendance: the number of picks per service comes from
  `random.randint` over floating-point bounds, and the picks from
  `random.sample`. Both are parameters, and only their duplicate-freedom is
  assumed. The believer rows are a parameter too, because their address and
  join date are random.
- The script's `print` output and its clearing of the tables. The model starts
  from empty tables.

=== FILE: checklist.dfy ===
/** The attendance page of the admin panel (static/app.js): the checklist
    derived from a roster and a service's attendance records, the summary
    counters, and the checkbox handler, with the page reduced to abstract data.
    The network is not here: each request's outcome is a parameter. */
module Checklist {
  import opened Wrappers
  import Store
  import Seqs

  /** One believer's line: the checkbox and the row's `checked` highlight class. */
  datatype Row = Row(believerId: int, checked: bool, highlighted: bool)

  /** What the checklist area shows: the "select a service" prompt, the
      "no believers registered" message, or one row per roster believer. */
  datatype Panel = SelectPrompt | NoBelievers | Rows(rows: seq<Row>)

  /** The summary box: the present, absent and total counters and whether it is displayed. */
  datatype Summary = Summary(present: int, absent: int, total: int, shown: bool)

  datatype View = View(panel: Panel, summary: Summary)

  /** The two GET requests of a load: both answered, or one of them threw. */
  datatype Fetch = Fetched(roster: seq<Store.Believer>, attendance: seq<Store.Attendance>) | FetchThrown

  /** How a request of the checkbox handler ended: a 2xx response, another status, or an exception. */
  datatype Reply = Ok | NotOk | Thrown

  /** The attendance lookup of an unchecking: the records returned, or an exception. */
  datatype Lookup = LookupAnswered(records: seq<Store.Attendance>) | LookupThrown

  predicate DifferentRows(a: Row, b: Row) { a.believerId != b.believerId }

  /** The set of believer ids occurring in an attendance result. */
  function AttendedIds(att: seq<Store.Attendance>): set<int>
  {
    set a | a in att :: a.believerId
  }

  function RowsFor(roster: seq<Store.Believer>, attended: set<int>): seq<Row>
  {
    seq(|roster|, i requires 0 <= i < |roster| =>
      Row(roster[i].id, roster[i].id in attended, roster[i].id in attended))
  }

  /** `updateAttendanceSummary`: show the counters for a roster size and a present count. */
  function ShowSummary(total: int, present: int): (r: Summary)
    ensures r.total == total && r.present == present
    ensures r.present + r.absent == r.total
    ensures r.shown
  {
    Summary(present, total - present, total, true)
  }

  /** `loadAttendanceChecklist`. Without a service it shows the prompt and hides
      the summary. When a request throws, the page stays as it was. An empty
      roster shows the "no believers" message and hides the summary. Otherwise
      there is one row per roster believer, in roster order, checked and
      highlighted exactly when some attendance record names that believer; the
      present counter is the number of distinct believer ids in the attendance
      result, roster members or not. */
  function LoadChecklist(v: View, serviceId: Option<int>, fetch: Fetch): (r: View)
    ensures serviceId.None? ==>
      r.panel == SelectPrompt && r.summary == v.summary.(shown := false)
    ensures serviceId.Some? && fetch.FetchThrown? ==> r == v
    ensures serviceId.Some? && fetch.Fetched? && fetch.roster == [] ==>
      r.panel == NoBelievers && r.summary == v.summary.(shown := false)
    ensures serviceId.Some? && fetch.Fetched? && fetch.roster != [] ==>
      var roster := fetch.roster;
      && r.panel.Rows? && |r.panel.rows| == |roster|
      && (forall i :: 0 <= i < |roster| ==>
            && r.panel.rows[i].believerId == roster[i].id
            && r.panel.rows[i].highlighted == r.panel.rows[i].checked
            && (r.panel.rows[i].checked <==> exists a :: a in fetch.attendance && a.believerId == roster[i].id))
      && r.summary.shown
      && r.summary.total == |roster|
      && r.summary.present == |AttendedIds(fetch.attendance)|
      && r.summary.present + r.summary.absent == r.summary.total
  {
    if serviceId.None? then View(SelectPrompt, v.summary.(shown := false))
    else
      match fetch
      case FetchThrown => v
      case Fetched(roster, att) =>
        if roster == [] then View(NoBelievers, v.summary.(shown := false))
        else
          var ids := AttendedIds(att);
          View(Rows(RowsFor(roster, ids)), ShowSummary(|roster|, |ids|))
  }

  /** `updateSummaryCounts`: present moves by `change`, absent is recomputed from
      the total, and the total is untouched, so present + absent = total after
      every call whatever the counters held before. */
  function UpdateSummaryCounts(s: Summary, change: int): (r: Summary)
    ensures r.present == s.present + change
    ensures r.total == s.total && r.shown == s.shown
    ensures r.present + r.absent == r.total
    ensures s.present + s.absent == s.total ==> r.absent == s.absent - change
  {
    var present := s.present + change;
    s.(present := present, absent := s.total - present)
  }

  /** The index `getElementById` reaches for a believer: the first row carrying that id. */
  function FindRow(rows: seq<Row>, b: int): (r: Option<nat>)
    ensures r.Some? ==> r.value < |rows| && rows[r.value].believerId == b
    ensures r.Some? ==> forall j :: 0 <= j < r.value ==> rows[j].believerId != b
    ensures r.None? ==> forall j :: 0 <= j < |rows| ==> rows[j].believerId != b
  {
    if rows == [] then None
    else if rows[0].believerId == b then Some(0)
    else match FindRow(rows[1..], b)
      case Some(k) => Some(k + 1)
      case None => None
  }

  /** The row lookup sees only the ids of the rows. */
  lemma {:induction false} FindRowSameIds(rows: seq<Row>, rows': seq<Row>, b: int)
    requires |rows| == |rows'|
    requires forall i :: 0 <= i < |rows| ==> rows[i].believerId == rows'[i].believerId
    ensures FindRow(rows, b) == FindRow(rows', b)
  {
    if rows != [] {
      FindRowSameIds(rows[1..], rows'[1..], b);
    }
  }

  function RowIndex(v: View, b: int): Option<nat>
  {
    if v.panel.Rows? then FindRow(v.panel.rows, b) else None
  }

  /** The row of believer `b` as the page shows it, if the checklist has one. */
  function RowOf(v: View, b: int): Option<Row>
  {
    match RowIndex(v, b)
    case Some(k) => Some(v.panel.rows[k])
    case None => None
  }

  /** `r` differs from `v` at most in the row of believer `b` and in the summary,
      and that row still belongs to `b`. */
  predicate OtherRowsKept(v: View, r: View, b: int)
  {
    && r.panel.Rows? == v.panel.Rows?
    && (v.panel.Rows? ==>
          && |r.panel.rows| == |v.panel.rows|
          && forall i :: 0 <= i < |v.panel.rows| ==>
               && r.panel.rows[i].believerId == v.panel.rows[i].believerId
               && (RowIndex(v, b) != Some(i) ==> r.panel.rows[i] == v.panel.rows[i]))
    && (!v.panel.Rows? ==> r.panel == v.panel)
  }

  /** Rewrite the row of believer `b`, if there is one, with `f`, and the summary with `g`. */
  function ChangeRow(v: View, b: int, f: Row -> Row, g: Summary -> Summary): (r: View)
    requires forall row :: f(row).believerId == row.believerId
    ensures OtherRowsKept(v, r, b)
    ensures RowIndex(r, b) == RowIndex(v, b)
    ensures RowOf(v, b).Some? ==> RowOf(r, b) == Some(f(RowOf(v, b).value)) && r.summary == g(v.summary)
    ensures RowOf(v, b).None? ==> r == v
  {
    match RowIndex(v, b)
    case None => v
    case Some(k) =>
      var rows := v.panel.rows[k := f(v.panel.rows[k])];
      FindRowSameIds(v.panel.rows, rows, b);
      View(Rows(rows), g(v.summary))
  }

  /** The browser moves the checkbox to the user's new position before the `onchange` handler runs. */
  function Click(v: View, b: int, isChecked: bool): (r: View)
    ensures OtherRowsKept(v, r, b) && r.summary == v.summary && RowIndex(r, b) == RowIndex(v, b)
    ensures RowOf(v, b).Some? ==> RowOf(r, b) == Some(RowOf(v, b).value.(checked := isChecked))
    ensures RowOf(v, b).None? ==> r == v
  {
    ChangeRow(v, b, (row: Row) => row.(checked := isChecked), (s: Summary) => s)
  }

  /** The checking half of `toggleAttendance`, run after the click, given the
      response to the create request. A 2xx highlights the row and adds one to
      present. Any other status (the server's duplicate rejection included)
      unchecks the box, counters unchanged. An exception only raises an alert:
      the box keeps the user's position. Without a row for the believer the
      handler throws on the missing element and the page stays as it was. */
  function MarkPresent(v: View, b: int, reply: Reply): (r: View)
    ensures OtherRowsKept(v, r, b) && RowIndex(r, b) == RowIndex(v, b)
    ensures r.summary.total == v.summary.total && r.summary.shown == v.summary.shown
    ensures RowOf(v, b).None? || reply.Thrown? ==> r == v
    ensures RowOf(v, b).Some? && reply.Ok? ==>
      && RowOf(r, b) == Some(RowOf(v, b).value.(highlighted := true))
      && r.summary.present == v.summary.present + 1
      && r.summary.present + r.summary.absent == r.summary.total
    ensures RowOf(v, b).Some? && reply.NotOk? ==>
      RowOf(r, b) == Some(RowOf(v, b).value.(checked := false)) && r.summary == v.summary
  {
    match reply
    case Ok => ChangeRow(v, b, (row: Row) => row.(highlighted := true), (s: Summary) => UpdateSummaryCounts(s, 1))
    case NotOk => ChangeRow(v, b, (row: Row) => row.(checked := false), (s: Summary) => s)
    case Thrown => v
  }

  /** The unchecking half of `toggleAttendance`, run after the click, given the
      lookup of the (service, believer) records and the response to deleting the
      first of them. An empty lookup deletes nothing and changes nothing. A 2xx
      clears the highlight and takes one from present. Any other status re-checks
      the box, counters unchanged. An exception, in the lookup or the delete,
      leaves the box unchecked and the counters unchanged. */
  function MarkAbsent(v: View, b: int, lookup: Lookup, reply: Reply): (r: View)
    ensures OtherRowsKept(v, r, b) && RowIndex(r, b) == RowIndex(v, b)
    ensures r.summary.total == v.summary.total && r.summary.shown == v.summary.shown
    ensures RowOf(v, b).None? || lookup.LookupThrown? || lookup.records == [] || reply.Thrown? ==> r == v
    ensures RowOf(v, b).Some? && lookup.LookupAnswered? && lookup.records != [] && reply.Ok? ==>
      && RowOf(r, b) == Some(RowOf(v, b).value.(highlighted := false))
      && r.summary.present == v.summary.present - 1
      && r.summary.present + r.summary.absent == r.summary.total
    ensures RowOf(v, b).Some? && lookup.LookupAnswered? && lookup.records != [] && reply.NotOk? ==>
      RowOf(r, b) == Some(RowOf(v, b).value.(checked := true)) && r.summary == v.summary
  {
    match lookup
    case LookupThrown => v
    case LookupAnswered(records) =>
      if |records| == 0 then v
      else
        match reply
        case Ok => ChangeRow(v, b, (row: Row) => row.(highlighted := false), (s: Summary) => UpdateSummaryCounts(s, -1))
        case NotOk => ChangeRow(v, b, (row: Row) => row.(checked := true), (s: Summary) => s)
        case Thrown => v
  }
}

=== FILE: reconciler.dfy ===
/** The attendance page and the server together: every checklist load and
    every checkbox toggle as one atomic step over the database and the page.
    Each HTTP request is delivered, refused by the server without a commit, lost
    before the server handles it, or lost after the server committed; a lost
    request makes the client's `fetch` throw. */
module Reconciler {
  import opened Wrappers
  import Store
  import Checklist
  import Seqs

  /** The fate of one HTTP request. `Refused`: the server handled it but failed
      before its commit took effect (for instance `db.session.commit()` raising
      on a locked database) and answered with a non-2xx status. */
  datatype Link = Delivered | Refused | LostBeforeServer | LostAfterServer

  /** The connection failed, so the client's `fetch` throws. */
  predicate Lost(link: Link) { link.LostBeforeServer? || link.LostAfterServer? }

  /** The server's handler ran to its commit. */
  predicate Commits(link: Link) { link.Delivered? || link.LostAfterServer? }

  datatype System = System(db: Store.Db, view: Checklist.View)

  /** `loadAttendanceChecklist` against the server: GET /api/believers and
      GET /api/attendance?service_id; GET requests leave the database alone.
      A refused GET answers with an error page, whose JSON decoding throws. */
  function LoadStep(sys: System, serviceId: Option<int>, link: Link): (r: System)
    ensures r.db == sys.db
  {
    var fetch :=
      if link == Delivered && serviceId.Some?
      then Checklist.Fetched(Store.ActiveBelievers(sys.db), Store.Query(sys.db.attendance, serviceId, None))
      else Checklist.FetchThrown;
    System(sys.db, Checklist.LoadChecklist(sys.view, serviceId, fetch))
  }

  /** POST /api/attendance as the client experiences it: the database after the
      request and the outcome the handler sees. */
  function Post(db: Store.Db, believerId: int, serviceId: int, link: Link): (r: (Store.Db, Checklist.Reply))
    ensures r.1 == Checklist.Thrown <==> Lost(link)
    ensures link == Delivered ==> (r.1 == Checklist.NotOk <==> Store.HasPair(db.attendance, serviceId, believerId))
    ensures link == Refused ==> r.1 == Checklist.NotOk
    ensures !Commits(link) || Store.HasPair(db.attendance, serviceId, believerId) ==> r.0 == db
    ensures Commits(link) && !Store.HasPair(db.attendance, serviceId, believerId) ==>
      && r.0.believers == db.believers && r.0.services == db.services
      && exists a ::
        && r.0.attendance == db.attendance + [a]
        && a.believerId == believerId && a.serviceId == serviceId
        && !Store.HasId(db.attendance, a.id)
  {
    var created := Store.CreateAttendance(db, believerId, serviceId);
    var db' := if Commits(link) && created.Success? then created.value.0 else db;
    var reply :=
      if Lost(link) then Checklist.Thrown
      else if link == Refused then Checklist.NotOk
      else if created.Success? then Checklist.Ok
      else Checklist.NotOk;
    (db', reply)
  }

  /** GET /api/attendance?service_id&believer_id as the client experiences it.
      Only a delivered lookup answers: a refused one returns an error page,
      whose JSON decoding throws. */
  function Lookup(db: Store.Db, serviceId: int, believerId: int, link: Link): (r: Checklist.Lookup)
    ensures r.LookupAnswered? <==> link == Delivered
    ensures r.LookupAnswered? ==> forall a :: a in r.records <==>
      a in db.attendance && a.serviceId == serviceId && a.believerId == believerId
  {
    if link == Delivered then Checklist.LookupAnswered(Store.Query(db.attendance, Some(serviceId), Some(believerId)))
    else Checklist.LookupThrown
  }

  /** DELETE /api/attendance/<id> as the client experiences it. */
  function Delete(db: Store.Db, id: int, link: Link): (r: (Store.Db, Checklist.Reply))
    ensures r.1 == Checklist.Thrown <==> Lost(link)
    ensures link == Delivered ==> (r.1 == Checklist.NotOk <==> !Store.HasId(db.attendance, id))
    ensures link == Refused ==> r.1 == Checklist.NotOk
    ensures !Commits(link) ==> r.0 == db
    ensures r.0.believers == db.believers && r.0.services == db.services
    ensures forall a :: a in r.0.attendance <==> a in db.attendance && (!Commits(link) || a.id != id)
  {
    var deleted := Store.DeleteAttendance(db, id);
    var db' := if Commits(link) && deleted.Success? then deleted.value else db;
    var reply :=
      if Lost(link) then Checklist.Thrown
      else if link == Refused then Checklist.NotOk
      else if deleted.Success? then Checklist.Ok
      else Checklist.NotOk;
    (db', reply)
  }

  /** One change of believer `b`'s checkbox on the checklist of `serviceId`:
      the click, then `toggleAttendance` with its requests. `first` is the fate
      of the create or of the lookup, `second` that of the delete. Whatever the
      network does, the total is untouched and the counters stay balanced, and
      the database changes at most by one create or one delete request. */
  function ToggleStep(sys: System, serviceId: int, b: int, isChecked: bool, first: Link, second: Link): (r: System)
    ensures r.view.summary.total == sys.view.summary.total
    ensures r.view.summary.shown == sys.view.summary.shown
    ensures sys.view.summary.present + sys.view.summary.absent == sys.view.summary.total ==>
      r.view.summary.present + r.view.summary.absent == r.view.summary.total
    ensures Checklist.OtherRowsKept(sys.view, r.view, b)
    ensures Checklist.RowIndex(r.view, b) == Checklist.RowIndex(sys.view, b)
    ensures isChecked ==>
      r.db == sys.db || r.db == Store.Handle(sys.db, Store.CreateRequest(b, serviceId))
    ensures !isChecked ==>
      r.db == sys.db || exists a ::
        && a in sys.db.attendance && a.serviceId == serviceId && a.believerId == b
        && r.db == Store.Handle(sys.db, Store.DeleteRequest(a.id))
  {
    var clicked := Checklist.Click(sys.view, b, isChecked);
    if isChecked then
      var (db', reply) := Post(sys.db, b, serviceId, first);
      System(db', Checklist.MarkPresent(clicked, b, reply))
    else
      var lookup := Lookup(sys.db, serviceId, b, first);
      if lookup.LookupAnswered? && lookup.records != [] then
        assert lookup.records[0] in lookup.records;
        var (db', reply) := Delete(sys.db, lookup.records[0].id, second);
        assert db' == sys.db || db' == Store.Handle(sys.db, Store.DeleteRequest(lookup.records[0].id));
        System(db', Checklist.MarkAbsent(clicked, b, lookup, reply))
      else
        // no delete is sent, so there is no reply to consult
        System(sys.db, Checklist.MarkAbsent(clicked, b, lookup, Checklist.Thrown))
  }

  // ---------------------------------------------------------------------------
  // Agreement between the page and the database

  /** The checklist of `serviceId` tells the truth about the database: one row
      per distinct believer, each checked and highlighted exactly when that
      believer has a record for the service, the total is the number of rows,
      present is the number of distinct believers with a record for the
      service, and the counters balance. */
  predicate Consistent(sys: System, serviceId: int)
  {
    var v := sys.view;
    && v.panel.Rows?
    && Seqs.Pairwise(Checklist.DifferentRows, v.panel.rows)
    && (forall i :: 0 <= i < |v.panel.rows| ==>
          && v.panel.rows[i].checked == Store.HasPair(sys.db.attendance, serviceId, v.panel.rows[i].believerId)
          && v.panel.rows[i].highlighted == v.panel.rows[i].checked)
    && v.summary.shown
    && v.summary.total == |v.panel.rows|
    && v.summary.present == |Checklist.AttendedIds(Store.Query(sys.db.attendance, Some(serviceId), None))|
    && v.summary.present + v.summary.absent == v.summary.total
  }

  /** A believer id is among those the service's attendance query returns exactly when the pair has a record. */
  lemma AttendedIdsArePairs(rs: seq<Store.Attendance>, serviceId: int, c: int)
    ensures c in Checklist.AttendedIds(Store.Query(rs, Some(serviceId), None)) <==> Store.HasPair(rs, serviceId, c)
  {
    var q := Store.Query(rs, Some(serviceId), None);
    if Store.HasPair(rs, serviceId, c) {
      var a :| a in rs && a.serviceId == serviceId && a.believerId == c;
      assert a in q;
    }
  }

  /** A delivered load of a service with a non-empty active roster shows the truth. */
  lemma LoadEstablishesConsistency(sys: System, serviceId: int)
    requires Store.WellFormed(sys.db)
    requires Store.ActiveBelievers(sys.db) != []
    ensures Consistent(LoadStep(sys, Some(serviceId), Delivered), serviceId)
  {
    var r := LoadStep(sys, Some(serviceId), Delivered);
    var roster := Store.ActiveBelievers(sys.db);
    var att := Store.Query(sys.db.attendance, Some(serviceId), None);
    var rows := r.view.panel.rows;
    forall i | 0 <= i < |rows|
      ensures rows[i].checked == Store.HasPair(sys.db.attendance, serviceId, rows[i].believerId)
    {
      AttendedIdsArePairs(sys.db.attendance, serviceId, rows[i].believerId);
      if rows[i].checked {
        var a :| a in att && a.believerId == roster[i].id;
        assert a.believerId in Checklist.AttendedIds(att);
      }
    }
    forall i, j | 0 <= i < j < |rows|
      ensures Checklist.DifferentRows(rows[i], rows[j])
    {
      assert Store.DifferentBelievers(roster[i], roster[j]);
    }
  }

  /** Loading twice in a row gives the page the first load gave: the load
      derives everything from the server, nothing from the page before it. */
  lemma LoadIsIdempotent(sys: System, serviceId: Option<int>)
    ensures LoadStep(LoadStep(sys, serviceId, Delivered), serviceId, Delivered) == LoadStep(sys, serviceId, Delivered)
  {
  }

  /** Appending a record for believer `b` to the service's records adds `b` to the attended set. */
  lemma AttendedIdsAfterCreate(rs: seq<Store.Attendance>, serviceId: int, a: Store.Attendance)
    requires a.serviceId == serviceId
    ensures Checklist.AttendedIds(Store.Query(rs + [a], Some(serviceId), None))
         == Checklist.AttendedIds(Store.Query(rs, Some(serviceId), None)) + {a.believerId}
  {
    Store.QueryAppend(rs, [a], Some(serviceId), None);
    var q := Store.Query(rs, Some(serviceId), None);
    assert Store.Query([a], Some(serviceId), None) == [a];
    assert Checklist.AttendedIds(q + [a]) == Checklist.AttendedIds(q) + {a.believerId} by {
      forall c
        ensures c in Checklist.AttendedIds(q + [a]) <==> c in Checklist.AttendedIds(q) + {a.believerId}
      {
        if c in Checklist.AttendedIds(q + [a]) {
          var x :| x in q + [a] && x.believerId == c;
          if x != a {
            assert x in q;
          }
        }
        if c in Checklist.AttendedIds(q) {
          var x :| x in q && x.believerId == c;
          assert x in q + [a];
        }
        if c == a.believerId {
          assert a in q + [a];
        }
      }
    }
  }

  /** Successful create and delete keep the pairs of every other believer as they were. */
  lemma OtherPairsKept(db: Store.Db, db': Store.Db, serviceId: int, b: int)
    requires forall c :: c != b ==> (Store.HasPair(db'.attendance, serviceId, c) <==> Store.HasPair(db.attendance, serviceId, c))
    ensures forall c :: c != b ==>
      (c in Checklist.AttendedIds(Store.Query(db'.attendance, Some(serviceId), None)) <==>
       c in Checklist.AttendedIds(Store.Query(db.attendance, Some(serviceId), None)))
  {
    forall c | c != b
      ensures c in Checklist.AttendedIds(Store.Query(db'.attendance, Some(serviceId), None)) <==>
              c in Checklist.AttendedIds(Store.Query(db.attendance, Some(serviceId), None))
    {
      AttendedIdsArePairs(db'.attendance, serviceId, c);
      AttendedIdsArePairs(db.attendance, serviceId, c);
    }
  }

  /** Without network failures a genuine change of a checkbox keeps the page
      truthful, keeps the database well formed, and the database afterwards
      holds a record for the pair exactly when the box was checked. */
  lemma ToggleKeepsConsistency(sys: System, serviceId: int, b: int, isChecked: bool)
    requires Consistent(sys, serviceId) && Store.WellFormed(sys.db)
    requires Checklist.RowOf(sys.view, b).Some? && Checklist.RowOf(sys.view, b).value.checked != isChecked
    ensures var r := ToggleStep(sys, serviceId, b, isChecked, Delivered, Delivered);
      && Consistent(r, serviceId)
      && Store.WellFormed(r.db)
      && Store.HasPair(r.db.attendance, serviceId, b) == isChecked
      && forall c :: c != b ==>
           (Store.HasPair(r.db.attendance, serviceId, c) <==> Store.HasPair(sys.db.attendance, serviceId, c))
  {
    if isChecked {
      ToggleOnKeepsConsistency(sys, serviceId, b);
    } else {
      ToggleOffKeepsConsistency(sys, serviceId, b);
    }
  }

  /** Checking an unchecked box, every request delivered. */
  lemma ToggleOnKeepsConsistency(sys: System, serviceId: int, b: int)
    requires Consistent(sys, serviceId) && Store.WellFormed(sys.db)
    requires Checklist.RowOf(sys.view, b).Some? && !Checklist.RowOf(sys.view, b).value.checked
    ensures var r := ToggleStep(sys, serviceId, b, true, Delivered, Delivered);
      && Consistent(r, serviceId)
      && Store.WellFormed(r.db)
      && Store.HasPair(r.db.attendance, serviceId, b)
      && forall c :: c != b ==>
           (Store.HasPair(r.db.attendance, serviceId, c) <==> Store.HasPair(sys.db.attendance, serviceId, c))
  {
    var r := ToggleStep(sys, serviceId, b, true, Delivered, Delivered);
    var att := sys.db.attendance;
    var k := Checklist.RowIndex(sys.view, b).value;
    var before := Checklist.AttendedIds(Store.Query(att, Some(serviceId), None));
    var after := Checklist.AttendedIds(Store.Query(r.db.attendance, Some(serviceId), None));
    AttendedIdsArePairs(att, serviceId, b);
    AttendedIdsArePairs(r.db.attendance, serviceId, b);
    assert !Store.HasPair(att, serviceId, b);
    var a := Store.CreateAttendance(sys.db, b, serviceId).value.1;
    Store.HandlePreservesWellFormed(sys.db, Store.CreateRequest(b, serviceId));
    AttendedIdsAfterCreate(att, serviceId, a);
    assert after == before + {b};
    assert |after| == |before| + 1;
    assert forall c :: c != b ==> (Store.HasPair(r.db.attendance, serviceId, c) <==> Store.HasPair(att, serviceId, c)) by {
      forall c | c != b
        ensures Store.HasPair(r.db.attendance, serviceId, c) <==> Store.HasPair(att, serviceId, c)
      {
        if Store.HasPair(r.db.attendance, serviceId, c) {
          var x :| x in r.db.attendance && x.serviceId == serviceId && x.believerId == c;
          assert x in att;
        }
        if Store.HasPair(att, serviceId, c) {
          var x :| x in att && x.serviceId == serviceId && x.believerId == c;
          assert x in r.db.attendance;
        }
      }
    }
    RowsAgree(sys, r, serviceId, b, k);
  }

  /** Deleting a record of a well-formed database removes its pair and keeps
      every other believer's pair for the same service. */
  lemma DeleteDropsOnlyItsPair(db: Store.Db, rec: Store.Attendance)
    requires Store.WellFormed(db) && rec in db.attendance
    ensures Store.HasId(db.attendance, rec.id)
    ensures forall c :: Store.HasPair(Store.DeleteAttendance(db, rec.id).value.attendance, rec.serviceId, c) <==>
      c != rec.believerId && Store.HasPair(db.attendance, rec.serviceId, c)
  {
    var att := db.attendance;
    var att' := Store.DeleteAttendance(db, rec.id).value.attendance;
    assert forall x :: x in att' <==> x in att && x.id != rec.id;
    forall c
      ensures Store.HasPair(att', rec.serviceId, c) <==> c != rec.believerId && Store.HasPair(att, rec.serviceId, c)
    {
      if Store.HasPair(att', rec.serviceId, c) {
        var x :| x in att' && x.serviceId == rec.serviceId && x.believerId == c;
        assert x in att && x != rec;
        Seqs.PairwiseElements(Store.DifferentPairs, att, x, rec);
      }
      if c != rec.believerId && Store.HasPair(att, rec.serviceId, c) {
        var x :| x in att && x.serviceId == rec.serviceId && x.believerId == c;
        assert x != rec;
        Seqs.PairwiseElements(Store.DifferentIds, att, x, rec);
        assert x in att';
      }
    }
  }

  /** With every request delivered, unchecking a believer whose pair has the
      single record `rec` deletes exactly `rec` and reports success to the page. */
  lemma UncheckDeliveredDeletes(sys: System, serviceId: int, b: int, rec: Store.Attendance)
    requires Store.Query(sys.db.attendance, Some(serviceId), Some(b)) == [rec]
    requires Store.HasId(sys.db.attendance, rec.id)
    ensures var r := ToggleStep(sys, serviceId, b, false, Delivered, Delivered);
      && r.db == Store.DeleteAttendance(sys.db, rec.id).value
      && r.view == Checklist.MarkAbsent(Checklist.Click(sys.view, b, false), b,
                                        Checklist.LookupAnswered([rec]), Checklist.Ok)
  {
  }

  /** Unchecking a checked box, every request delivered. */
  lemma ToggleOffKeepsConsistency(sys: System, serviceId: int, b: int)
    requires Consistent(sys, serviceId) && Store.WellFormed(sys.db)
    requires Checklist.RowOf(sys.view, b).Some? && Checklist.RowOf(sys.view, b).value.checked
    ensures var r := ToggleStep(sys, serviceId, b, false, Delivered, Delivered);
      && Consistent(r, serviceId)
      && Store.WellFormed(r.db)
      && !Store.HasPair(r.db.attendance, serviceId, b)
      && forall c :: c != b ==>
           (Store.HasPair(r.db.attendance, serviceId, c) <==> Store.HasPair(sys.db.attendance, serviceId, c))
  {
    var r := ToggleStep(sys, serviceId, b, false, Delivered, Delivered);
    var att := sys.db.attendance;
    var k := Checklist.RowIndex(sys.view, b).value;
    var before := Checklist.AttendedIds(Store.Query(att, Some(serviceId), None));
    var after := Checklist.AttendedIds(Store.Query(r.db.attendance, Some(serviceId), None));
    AttendedIdsArePairs(att, serviceId, b);
    AttendedIdsArePairs(r.db.attendance, serviceId, b);
    var rec :| rec in att && rec.serviceId == serviceId && rec.believerId == b;
    Store.QueryPairIsTheRecord(att, serviceId, b);
    assert Store.Query(att, Some(serviceId), Some(b)) == [rec];
    assert Store.HasId(att, rec.id);
    Store.HandlePreservesWellFormed(sys.db, Store.DeleteRequest(rec.id));
    UncheckDeliveredDeletes(sys, serviceId, b, rec);
    DeleteDropsOnlyItsPair(sys.db, rec);
    OtherPairsKept(sys.db, r.db, serviceId, b);
    assert after == before - {b};
    assert |after| == |before| - 1;
    RowsAgree(sys, r, serviceId, b, k);
  }

  /** The per-row half of consistency after a toggle that changed only believer `b`'s pair and row. */
  lemma RowsAgree(sys: System, r: System, serviceId: int, b: int, k: nat)
    requires Consistent(sys, serviceId)
    requires Checklist.RowIndex(sys.view, b) == Some(k) && Checklist.RowIndex(r.view, b) == Some(k)
    requires Checklist.OtherRowsKept(sys.view, r.view, b)
    requires var x := Store.HasPair(r.db.attendance, serviceId, b);
      r.view.panel.rows[k] == sys.view.panel.rows[k].(checked := x, highlighted := x)
    requires forall c :: c != b ==> (Store.HasPair(r.db.attendance, serviceId, c) <==> Store.HasPair(sys.db.attendance, serviceId, c))
    ensures Seqs.Pairwise(Checklist.DifferentRows, r.view.panel.rows)
    ensures forall i :: 0 <= i < |r.view.panel.rows| ==>
      && r.view.panel.rows[i].checked == Store.HasPair(r.db.attendance, serviceId, r.view.panel.rows[i].believerId)
      && r.view.panel.rows[i].highlighted == r.view.panel.rows[i].checked
  {
    var rows := sys.view.panel.rows;
    var rows' := r.view.panel.rows;
    forall i | 0 <= i < |rows'| && i != k
      ensures rows'[i] == rows[i] && rows[i].believerId != b
    {
      if i < k {
        assert Checklist.DifferentRows(rows[i], rows[k]);
      } else {
        assert Checklist.DifferentRows(rows[k], rows[i]);
      }
    }
  }

  /** Unchecking and then re-checking a present believer, with every request
      delivered, gives back exactly the page it started from, and the pair
      again has exactly one record. */
  lemma UncheckRecheckRoundTrip(sys: System, serviceId: int, b: int)
    requires Consistent(sys, serviceId) && Store.WellFormed(sys.db)
    requires Checklist.RowOf(sys.view, b).Some? && Checklist.RowOf(sys.view, b).value.checked
    ensures var s1 := ToggleStep(sys, serviceId, b, false, Delivered, Delivered);
      var s2 := ToggleStep(s1, serviceId, b, true, Delivered, Delivered);
      && s2.view == sys.view
      && Consistent(s2, serviceId)
      && |Store.Query(s2.db.attendance, Some(serviceId), Some(b))| == 1
  {
    var s1 := ToggleStep(sys, serviceId, b, false, Delivered, Delivered);
    ToggleKeepsConsistency(sys, serviceId, b, false);
    var s2 := ToggleStep(s1, serviceId, b, true, Delivered, Delivered);
    ToggleKeepsConsistency(s1, serviceId, b, true);
    SamePairsSameView(sys, s2, serviceId);
    Store.QueryPairIsTheRecord(s2.db.attendance, serviceId, b);
    Store.QueryPairAtMostOne(s2.db.attendance, serviceId, b);
  }

  /** Two truthful checklists over the same believer ids, for databases that
      agree on which believers have a record for the service, are the same page. */
  lemma SamePairsSameView(s: System, t: System, serviceId: int)
    requires Consistent(s, serviceId) && Consistent(t, serviceId)
    requires |s.view.panel.rows| == |t.view.panel.rows|
    requires forall i :: 0 <= i < |s.view.panel.rows| ==> s.view.panel.rows[i].believerId == t.view.panel.rows[i].believerId
    requires forall c :: Store.HasPair(s.db.attendance, serviceId, c) <==> Store.HasPair(t.db.attendance, serviceId, c)
    ensures s.view == t.view
  {
    assert s.view.panel.rows == t.view.panel.rows;
    assert Checklist.AttendedIds(Store.Query(s.db.attendance, Some(serviceId), None))
        == Checklist.AttendedIds(Store.Query(t.db.attendance, Some(serviceId), None)) by {
      forall c
        ensures c in Checklist.AttendedIds(Store.Query(s.db.attendance, Some(serviceId), None)) <==>
                c in Checklist.AttendedIds(Store.Query(t.db.attendance, Some(serviceId), None))
      {
        AttendedIdsArePairs(s.db.attendance, serviceId, c);
        AttendedIdsArePairs(t.db.attendance, serviceId, c);
      }
    }
  }

  // ---------------------------------------------------------------------------
  // Where the page and the database part ways

  /** Checking a box whose pair already has a record (a stale page, another
      tab): the server answers 400, the handler unchecks the box and leaves the
      counters, and the record stays. The page now says absent, the database present. */
  lemma DuplicateCreateUnchecks(sys: System, serviceId: int, b: int, second: Link)
    requires Store.HasPair(sys.db.attendance, serviceId, b)
    requires Checklist.RowOf(sys.view, b).Some?
    ensures var r := ToggleStep(sys, serviceId, b, true, Delivered, second);
      && r.db == sys.db
      && Store.HasPair(r.db.attendance, serviceId, b)
      && Checklist.RowOf(r.view, b) == Some(Checklist.RowOf(sys.view, b).value.(checked := false))
      && r.view.summary == sys.view.summary
  {
  }

  /** When a request throws, the handler only raises an alert: the box keeps the
      user's new position, the highlight and the counters stay as they were. */
  lemma ExceptionKeepsUserPosition(sys: System, serviceId: int, b: int, isChecked: bool, first: Link, second: Link)
    requires Checklist.RowOf(sys.view, b).Some?
    requires if isChecked then Lost(first) else first != Delivered || Lost(second)
    ensures var r := ToggleStep(sys, serviceId, b, isChecked, first, second);
      && Checklist.RowOf(r.view, b) == Some(Checklist.RowOf(sys.view, b).value.(checked := isChecked))
      && r.view.summary == sys.view.summary
  {
  }

  /** A refused create or delete is rolled back on the page: from a truthful
      page, a genuine toggle whose write the server refuses leaves both the
      database and the page exactly as they were, so the page stays truthful. */
  lemma RefusedToggleRestores(sys: System, serviceId: int, b: int, isChecked: bool)
    requires Consistent(sys, serviceId)
    requires Checklist.RowOf(sys.view, b).Some? && Checklist.RowOf(sys.view, b).value.checked != isChecked
    ensures var r := ToggleStep(sys, serviceId, b, isChecked, if isChecked then Refused else Delivered, Refused);
      r == sys && Consistent(r, serviceId)
  {
  }

  /** A create the server committed but whose response was lost leaves a
      truthful page untruthful: the record exists and the box is checked, but
      the row is not highlighted and present was not incremented. */
  lemma CommittedCreateLostDiverges(sys: System, serviceId: int, b: int, second: Link)
    requires Consistent(sys, serviceId)
    requires Checklist.RowOf(sys.view, b).Some? && !Checklist.RowOf(sys.view, b).value.checked
    ensures var r := ToggleStep(sys, serviceId, b, true, LostAfterServer, second);
      && Store.HasPair(r.db.attendance, serviceId, b)
      && Checklist.RowOf(r.view, b).value.checked
      && !Checklist.RowOf(r.view, b).value.highlighted
      && r.view.summary == sys.view.summary
      && !Consistent(r, serviceId)
  {
    var r := ToggleStep(sys, serviceId, b, true, LostAfterServer, second);
    var k := Checklist.RowIndex(sys.view, b).value;
    assert r.view.panel.rows[k] == Checklist.RowOf(r.view, b).value;
  }

  /** Unchecking a believer with no record for the service sends no delete:
      the database, the counters and the highlight stay, the box stays unchecked. */
  lemma UncheckWithoutRecordSendsNoDelete(sys: System, serviceId: int, b: int, second: Link)
    requires !Store.HasPair(sys.db.attendance, serviceId, b)
    ensures var r := ToggleStep(sys, serviceId, b, false, Delivered, second);
      r.db == sys.db && r.view == Checklist.Click(sys.view, b, false)
  {
    Seqs.FilterRejectsAll((a: Store.Attendance) => Store.Matches(a, Some(serviceId), Some(b)), sys.db.attendance);
  }

  /** The present counter counts believers outside the roster: with one active
      believer who has no record and two inactive believers who do, the page
      shows one unchecked row, present 2, total 1 and absent -1. */
  lemma PresentCountsBelieversOutsideRoster(v: Checklist.View)
    ensures var db := Store.Db(
        [Store.Believer(1, "Ann", "Active", true),
         Store.Believer(2, "Ben", "Inactive", false),
         Store.Believer(3, "Cal", "Inactive", false)],
        [Store.Service(10, Store.SundayType, 0, "10:00")],
        [Store.Attendance(1, 2, 10), Store.Attendance(2, 3, 10)]);
      var r := LoadStep(System(db, v), Some(10), Delivered).view;
      && r.panel == Checklist.Rows([Checklist.Row(1, false, false)])
      && r.summary == Checklist.Summary(2, -1, 1, true)
  {
    var db := Store.Db(
        [Store.Believer(1, "Ann", "Active", true),
         Store.Believer(2, "Ben", "Inactive", false),
         Store.Believer(3, "Cal", "Inactive", false)],
        [Store.Service(10, Store.SundayType, 0, "10:00")],
        [Store.Attendance(1, 2, 10), Store.Attendance(2, 3, 10)]);
    var roster := Store.ActiveBelievers(db);
    assert roster == [Store.Believer(1, "Ann", "Active", true)] by {
      assert db.believers[1..] == [Store.Believer(2, "Ben", "Inactive", false), Store.Believer(3, "Cal", "Inactive", false)];
      assert db.believers[1..][1..] == [Store.Believer(3, "Cal", "Inactive", false)];
    }
    var att := Store.Query(db.attendance, Some(10), None);
    assert att == db.attendance by {
      Store.QueryUnfiltered(db.attendance);
      Seqs.FilterKeepsAll((a: Store.Attendance) => Store.Matches(a, Some(10), None), db.attendance);
    }
    var ids := Checklist.AttendedIds(att);
    assert ids == {2, 3} by {
      assert Store.Attendance(1, 2, 10) in att && Store.Attendance(2, 3, 10) in att;
    }
  }
}

=== FILE: seed.dfy ===
/** The sample-data script (init_sample_data.py): the dates of the Sunday and
    midweek services it creates for the last twelve weeks, and the loop that
    records one attendance per selected believer per service.

    Dates are day numbers in the proleptic Gregorian ordinal count that
    Python's `date.toordinal()` uses (day 1 is Monday 1 January of year 1), so
    `date.weekday()` is `(ordinal + 6) % 7` with Monday 0 and Sunday 6, and
    subtracting a `timedelta` of n days subtracts n. */
module Seed {
  import Store
  import Seqs

  const Monday: int := 0
  const Tuesday: int := 1
  const Wednesday: int := 2
  const Sunday: int := 6

  /** The number of weeks the script goes back. */
  const Weeks: nat := 12

  /** `date.weekday()`. */
  function Weekday(day: int): (w: int)
    ensures 0 <= w < 7
  {
    (day + 6) % 7
  }

  /** The Sunday service date of `week` (init_sample_data.py:62): a Sunday in the seven-day
      window that ends just before `today - 7 * week`, so week 0 is the last
      Sunday strictly before today. */
  function SundayDate(today: int, week: nat): (d: int)
    ensures Weekday(d) == Sunday
    ensures today - 7 * (week + 1) <= d < today - 7 * week
  {
    var d := today - (Weekday(today) + 1 + 7 * week);
    assert d + 6 == 7 * ((today + 6) / 7 - week - 1) + 6;
    d
  }

  /** The dates of the twelve Sunday services, most recent first. */
  function SundayDates(today: int): (ds: seq<int>)
    ensures |ds| == Weeks
    ensures forall i :: 0 <= i < |ds| ==> ds[i] == SundayDate(today, i)
  {
    seq(Weeks, i requires 0 <= i => SundayDate(today, i))
  }

  /** The twelve Sundays are consecutive Sundays, a week apart, all different and all before today. */
  lemma SundayDatesSpacing(today: int)
    ensures var ds := SundayDates(today);
      && (forall i :: 0 <= i < |ds| ==> Weekday(ds[i]) == Sunday && ds[i] < today)
      && (forall i :: 0 < i < |ds| ==> ds[i - 1] - ds[i] == 7)
      && (forall i, j :: 0 <= i < j < |ds| ==> ds[i] != ds[j])
  {
  }

  /** The candidate midweek date of `week` (init_sample_data.py:74): a Wednesday no more than
      two days after, and no more than four days before, `today - 7 * week`. */
  function MidweekCandidate(today: int, week: nat): (d: int)
    ensures Weekday(d) == Wednesday
    ensures today - 7 * week - 4 <= d <= today - 7 * week + 2
  {
    var d := today - (Weekday(today) - 2 + 7 * week);
    assert d + 6 == 7 * ((today + 6) / 7 - week) + 2;
    d
  }

  function MidweekCandidates(today: int): (ds: seq<int>)
    ensures |ds| == Weeks
    ensures forall i :: 0 <= i < |ds| ==> ds[i] == MidweekCandidate(today, i)
  {
    seq(Weeks, i requires 0 <= i => MidweekCandidate(today, i))
  }

  /** The midweek dates the script keeps (init_sample_data.py:75): the candidates on or before today. */
  function MidweekDates(today: int): (ds: seq<int>)
    ensures forall d :: d in ds ==> Weekday(d) == Wednesday && d <= today
  {
    Seqs.Filter(d => d <= today, MidweekCandidates(today))
  }

  /** Only the current week's Wednesday can lie in the future, and it does
      exactly when today is a Monday or a Tuesday; so the script creates 11
      midweek services early in the week and 12 otherwise. */
  lemma MidweekDatesDropWeekZero(today: int)
    ensures MidweekCandidate(today, 0) > today <==> Weekday(today) == Monday || Weekday(today) == Tuesday
    ensures MidweekDates(today) ==
      if Weekday(today) < Wednesday then MidweekCandidates(today)[1..] else MidweekCandidates(today)
    ensures |MidweekDates(today)| == if Weekday(today) < Wednesday then Weeks - 1 else Weeks
  {
    var cs := MidweekCandidates(today);
    Seqs.FilterKeepsAll(d => d <= today, cs[1..]);
    assert cs == [cs[0]] + cs[1..];
  }

  /** The services the script creates, in creation order: the Sundays, then the
      midweek services, numbered from 1 as an emptied table numbers them. */
  function SeedServices(today: int): (ss: seq<Store.Service>)
    ensures |ss| == |SundayDates(today)| + |MidweekDates(today)|
    ensures forall i :: 0 <= i < |ss| ==> ss[i].id == i + 1
    ensures forall i :: 0 <= i < |ss| ==>
      if i < Weeks then ss[i].serviceType == Store.SundayType && Weekday(ss[i].serviceDate) == Sunday
      else ss[i].serviceType == Store.MidweekType && Weekday(ss[i].serviceDate) == Wednesday
    ensures forall i :: 0 <= i < |ss| ==> ss[i].serviceDate <= today
    ensures forall i :: 0 <= i < Weeks ==> ss[i].serviceDate == SundayDate(today, i) && ss[i].serviceTime == "10:00"
    ensures forall i :: Weeks <= i < |ss| ==>
      ss[i].serviceDate == MidweekDates(today)[i - Weeks] && ss[i].serviceTime == "19:00"
  {
    var sundays := SundayDates(today);
    var midweeks := MidweekDates(today);
    var sundayServices := seq(|sundays|, i requires 0 <= i < |sundays| =>
      Store.Service(i + 1, Store.SundayType, sundays[i], "10:00"));
    var midweekServices := seq(|midweeks|, i requires 0 <= i < |midweeks| =>
      assert midweeks[i] in midweeks;
      Store.Service(|sundays| + i + 1, Store.MidweekType, midweeks[i], "19:00"));
    sundayServices + midweekServices
  }

  /** Within each service type the seeded dates strictly decrease, most recent
      first, so no two services of one type share a date. */
  lemma SeedServicesDatesDescend(today: int)
    ensures var ss := SeedServices(today);
      forall i, j :: 0 <= i < j < |ss| && ss[i].serviceType == ss[j].serviceType ==>
        ss[j].serviceDate < ss[i].serviceDate
  {
    var ss := SeedServices(today);
    var later := (x: int, y: int) => y < x;
    var cs := MidweekCandidates(today);
    assert Seqs.Pairwise(later, cs) by {
      forall i, j | 0 <= i < j < |cs|
        ensures later(cs[i], cs[j])
      {
        assert cs[j] <= today - 7 * j + 2 < today - 7 * i - 4 <= cs[i];
      }
    }
    Seqs.FilterPairwise(later, d => d <= today, cs);
    var ms := MidweekDates(today);
    forall i, j | 0 <= i < j < |ss| && ss[i].serviceType == ss[j].serviceType
      ensures ss[j].serviceDate < ss[i].serviceDate
    {
      if j < Weeks {
        assert ss[j].serviceDate < today - 7 * j <= today - 7 * (i + 1) <= ss[i].serviceDate;
      } else if Weeks <= i {
        assert later(ms[i - Weeks], ms[j - Weeks]);
      }
    }
  }

  /** No value occurs twice. */
  predicate Distinct(s: seq<int>)
  {
    Seqs.Pairwise((x: int, y: int) => x != y, s)
  }

  /** The number of attendance records the selections ask for. */
  function TotalPicks(picks: seq<seq<int>>): nat
  {
    if picks == [] then 0 else TotalPicks(picks[..|picks| - 1]) + |picks[|picks| - 1]|
  }

  /** The attendance loop (init_sample_data.py:92-104) after the tables were emptied: for each
      service, one record per believer `random.sample` picked for it, numbered
      from 1 in insertion order. With distinct services and duplicate-free
      picks the result has exactly one record per picked pair, so it satisfies
      the pair uniqueness that `create_attendance` guards. */
  method SeedAttendance(services: seq<int>, picks: seq<seq<int>>) returns (records: seq<Store.Attendance>, count: nat)
    requires |picks| == |services|
    requires Distinct(services)
    requires forall i :: 0 <= i < |picks| ==> Distinct(picks[i])
    ensures count == |records| == TotalPicks(picks)
    ensures forall k :: 0 <= k < |records| ==> records[k].id == k + 1
    ensures forall a :: a in records ==> a.serviceId in services
    ensures forall i, b :: 0 <= i < |services| ==> (Store.HasPair(records, services[i], b) <==> b in picks[i])
    ensures Store.PairUnique(records) && Store.IdsUnique(records)
  {
    records := [];
    count := 0;
    var i := 0;
    while i < |services|
      invariant 0 <= i <= |services|
      invariant count == |records| == TotalPicks(picks[..i])
      invariant forall k :: 0 <= k < |records| ==> records[k].id == k + 1
      invariant forall a :: a in records ==> a.serviceId in services[..i]
      invariant forall i', b :: 0 <= i' < i ==> (Store.HasPair(records, services[i'], b) <==> b in picks[i'])
      invariant Store.PairUnique(records)
    {
      var pick := picks[i];
      ghost var before := records;
      var j := 0;
      while j < |pick|
        invariant 0 <= j <= |pick|
        invariant count == |records| == |before| + j
        invariant forall k :: 0 <= k < |records| ==> records[k].id == k + 1
        invariant forall k :: |before| <= k < |records| ==> records[k].serviceId == services[i]
        invariant records[..|before|] == before
        invariant forall a :: a in records ==> a.serviceId in services[..i + 1]
        invariant forall b :: Store.HasPair(records, services[i], b) <==> b in pick[..j]
        invariant Store.PairUnique(records)
      {
        var a := Store.Attendance(|records| + 1, pick[j], services[i]);
        assert pick[j] !in pick[..j];
        Seqs.PairwiseAppend(Store.DifferentPairs, records, a);
        ghost var prev := records;
        records := records + [a];
        assert pick[..j + 1] == pick[..j] + [pick[j]];
        forall b
          ensures Store.HasPair(records, services[i], b) <==> b in pick[..j + 1]
        {
          if Store.HasPair(records, services[i], b) {
            var x :| x in records && x.serviceId == services[i] && x.believerId == b;
            if x != a {
              assert x in prev;
            }
          }
          if b in pick[..j] {
            var x :| x in prev && x.serviceId == services[i] && x.believerId == b;
            assert x in records;
          }
        }
        count := count + 1;
        j := j + 1;
      }
      assert picks[..i + 1][..i] == picks[..i];
      i := i + 1;
    }
    assert picks[..i] == picks;
  }

  /** The whole script after the tables were emptied: the given believers, the
      seeded services, and one record per picked believer per service. The
      resulting database is well formed, pair uniqueness included. */
  method SeedDatabase(today: int, believers: seq<Store.Believer>, picks: seq<seq<int>>)
    returns (db: Store.Db, attendanceCount: nat)
    requires Seqs.Pairwise(Store.DifferentBelievers, believers)
    requires |picks| == |SeedServices(today)|
    requires forall i :: 0 <= i < |picks| ==> Distinct(picks[i])
    ensures Store.WellFormed(db)
    ensures db.believers == believers && db.services == SeedServices(today)
    ensures attendanceCount == |db.attendance| == TotalPicks(picks)
    ensures forall i, b :: 0 <= i < |db.services| ==>
      (Store.HasPair(db.attendance, db.services[i].id, b) <==> b in picks[i])
  {
    var services := SeedServices(today);
    var ids := seq(|services|, i requires 0 <= i < |services| => services[i].id);
    var records;
    records, attendanceCount := SeedAttendance(ids, picks);
    db := Store.Db(believers, services, records);
    assert Seqs.Pairwise(Store.DifferentServices, services);
    assert Store.IdsUnique(records);
  }
}

=== FILE: seqs.dfy ===
/** Order-preserving filtering and pairwise properties of sequences, the two
    sequence notions every table and list of the application is reasoned with. */
module Seqs {

  /** The elements of `s` that satisfy `p`, in their original order. */
  function Filter<T(!new)>(p: T -> bool, s: seq<T>): (r: seq<T>)
    ensures forall x :: x in r <==> x in s && p(x)
    ensures |r| <= |s|
  {
    if s == [] then []
    else if p(s[0]) then [s[0]] + Filter(p, s[1..])
    else Filter(p, s[1..])
  }

  /** Filtering distributes over concatenation: together with the one-element
      case this pins `Filter` down as "keep, in order, exactly what `p` accepts". */
  lemma {:induction false} FilterAppend<T(!new)>(p: T -> bool, s: seq<T>, t: seq<T>)
    ensures Filter(p, s + t) == Filter(p, s) + Filter(p, t)
  {
    if s == [] {
      assert s + t == t;
    } else {
      assert (s + t)[1..] == s[1..] + t;
      FilterAppend(p, s[1..], t);
    }
  }

  /** A filter that accepts every element returns the sequence itself. */
  lemma {:induction false} FilterKeepsAll<T(!new)>(p: T -> bool, s: seq<T>)
    requires forall x :: x in s ==> p(x)
    ensures Filter(p, s) == s
  {
    if s != [] {
      assert s[0] in s;
      FilterKeepsAll(p, s[1..]);
      assert [s[0]] + s[1..] == s;
    }
  }

  /** A filter that accepts nothing returns the empty sequence. */
  lemma FilterRejectsAll<T(!new)>(p: T -> bool, s: seq<T>)
    requires forall x :: x in s ==> !p(x)
    ensures Filter(p, s) == []
  {
    if Filter(p, s) != [] {
      assert Filter(p, s)[0] in Filter(p, s);
    }
  }

  /** `rel` holds of every pair of elements taken in sequence order. */
  predicate Pairwise<T(!new)>(rel: (T, T) -> bool, s: seq<T>)
  {
    forall i, j :: 0 <= i < j < |s| ==> rel(s[i], s[j])
  }

  /** Dropping the first element keeps a pairwise property. */
  lemma PairwiseTail<T(!new)>(rel: (T, T) -> bool, s: seq<T>)
    requires Pairwise(rel, s) && s != []
    ensures Pairwise(rel, s[1..])
  {
    forall i, j | 0 <= i < j < |s[1..]|
      ensures rel(s[1..][i], s[1..][j])
    {
      assert s[1..][i] == s[i + 1] && s[1..][j] == s[j + 1];
    }
  }

  /** Filtering keeps a pairwise property: the result is a subsequence. */
  lemma {:induction false} FilterPairwise<T(!new)>(rel: (T, T) -> bool, p: T -> bool, s: seq<T>)
    requires Pairwise(rel, s)
    ensures Pairwise(rel, Filter(p, s))
  {
    if s != [] {
      var rest := Filter(p, s[1..]);
      PairwiseTail(rel, s);
      FilterPairwise(rel, p, s[1..]);
      if p(s[0]) {
        var r := [s[0]] + rest;
        forall i, j | 0 <= i < j < |r|
          ensures rel(r[i], r[j])
        {
          if i == 0 {
            assert r[j] in s[1..];
            var k :| 0 <= k < |s[1..]| && s[1..][k] == r[j];
            assert s[k + 1] == r[j];
          } else {
            assert r[i] == rest[i - 1] && r[j] == rest[j - 1];
          }
        }
      }
    }
  }

  /** Appending an element related to everything before it keeps a pairwise property. */
  lemma PairwiseAppend<T(!new)>(rel: (T, T) -> bool, s: seq<T>, x: T)
    requires Pairwise(rel, s)
    requires forall y :: y in s ==> rel(y, x)
    ensures Pairwise(rel, s + [x])
  {
    var r := s + [x];
    forall i, j | 0 <= i < j < |r|
      ensures rel(r[i], r[j])
    {
      if j == |s| {
        assert r[i] == s[i] && s[i] in s;
      } else {
        assert r[i] == s[i] && r[j] == s[j];
      }
    }
  }

  /** Two different elements of a pairwise-related sequence are related one way or the other. */
  lemma PairwiseElements<T(!new)>(rel: (T, T) -> bool, s: seq<T>, x: T, y: T)
    requires Pairwise(rel, s)
    requires x in s && y in s && x != y
    ensures rel(x, y) || rel(y, x)
  {
    var i :| 0 <= i < |s| && s[i] == x;
    var j :| 0 <= j < |s| && s[j] == y;
    assert i != j;
  }
}

=== FILE: services_page.dfy ===
/** The services table of the admin panel (static/app.js `displayServices`):
    the type tab filter over the services the server listed. */
module ServicesPage {
  import Store
  import Seqs

  /** The tab value that shows every service. */
  const AllTab: string := "all"

  /** What the services table shows: an "empty" message, or the listed services in order. */
  datatype Table =
    | NoServicesScheduled
    | NoServicesOfType(serviceType: string)
    | Listing(services: seq<Store.ServiceInfo>)

  /** The services the current tab lets through, in the server's order. */
  function FilterServices(services: seq<Store.ServiceInfo>, tab: string): (r: seq<Store.ServiceInfo>)
    ensures tab == AllTab ==> r == services
    ensures tab != AllTab ==> forall s :: s in r <==> s in services && s.serviceType == tab
  {
    if tab == AllTab then services
    else Seqs.Filter((s: Store.ServiceInfo) => s.serviceType == tab, services)
  }

  /** The filter keeps order: it distributes over any split of the listing, and
      a single service is shown exactly when the tab lets it through. */
  lemma FilterServicesKeepsOrder(s: seq<Store.ServiceInfo>, t: seq<Store.ServiceInfo>, x: Store.ServiceInfo, tab: string)
    ensures FilterServices(s + t, tab) == FilterServices(s, tab) + FilterServices(t, tab)
    ensures FilterServices([x], tab) == if tab == AllTab || x.serviceType == tab then [x] else []
  {
    if tab != AllTab {
      Seqs.FilterAppend((x: Store.ServiceInfo) => x.serviceType == tab, s, t);
    }
  }

  /** `displayServices`: the filtered listing, or the message for an empty one. */
  function DisplayServices(services: seq<Store.ServiceInfo>, tab: string): (r: Table)
    ensures r.Listing? ==> r.services != [] && r.services == FilterServices(services, tab)
    ensures r.NoServicesScheduled? <==> tab == AllTab && services == []
    ensures r.NoServicesOfType? ==> r.serviceType == tab && tab != AllTab
    ensures r.NoServicesOfType? <==> tab != AllTab && forall s :: s in services ==> s.serviceType != tab
  {
    var shown := FilterServices(services, tab);
    if shown == [] then
      (if tab == AllTab then NoServicesScheduled else NoServicesOfType(tab))
    else
      assert shown[0] in shown;
      Listing(shown)
  }
}

=== FILE: store.dfy ===
/** The server's attendance store (app.py): the believer, service and
    attendance tables, the attendance endpoints, the cascading deletes of
    services and believers, the active-believer listing, a service's
    `attendance_count` and a believer's attendance statistics.

    Tables are sequences in row order. Every operation is a pure function from
    the database before the request to the response and the database after it;
    an error response leaves the database as it was. */
module Store {
  import opened Wrappers
  import Seqs

  datatype Believer = Believer(id: int, firstName: string, lastName: string, isActive: bool)

  /** `serviceType` is free text in the table; the application writes "sunday" or "midweek".
      `serviceDate` is a day number. */
  datatype Service = Service(id: int, serviceType: string, serviceDate: int, serviceTime: string)

  datatype Attendance = Attendance(id: nat, believerId: int, serviceId: int)

  datatype Db = Db(believers: seq<Believer>, services: seq<Service>, attendance: seq<Attendance>)

  /** The HTTP errors of the attendance endpoints: 404 from `get_or_404`, 400 for a duplicate. */
  datatype Error = NotFound | AlreadyRecorded

  const SundayType: string := "sunday"
  const MidweekType: string := "midweek"

  // ---------------------------------------------------------------------------
  // Integrity of the tables

  predicate DifferentIds(a: Attendance, b: Attendance) { a.id != b.id }
  predicate DifferentPairs(a: Attendance, b: Attendance) {
    a.serviceId != b.serviceId || a.believerId != b.believerId
  }
  predicate DifferentBelievers(a: Believer, b: Believer) { a.id != b.id }
  predicate DifferentServices(a: Service, b: Service) { a.id != b.id }

  /** At most one attendance record per (service, believer) pair. */
  predicate PairUnique(rs: seq<Attendance>) { Seqs.Pairwise(DifferentPairs, rs) }

  /** Primary keys of the attendance table are distinct. */
  predicate IdsUnique(rs: seq<Attendance>) { Seqs.Pairwise(DifferentIds, rs) }

  predicate WellFormed(db: Db)
  {
    && Seqs.Pairwise(DifferentBelievers, db.believers)
    && Seqs.Pairwise(DifferentServices, db.services)
    && IdsUnique(db.attendance)
    && PairUnique(db.attendance)
  }

  predicate HasPair(rs: seq<Attendance>, serviceId: int, believerId: int)
  {
    exists a :: a in rs && a.serviceId == serviceId && a.believerId == believerId
  }

  predicate HasId(rs: seq<Attendance>, id: int)
  {
    exists a :: a in rs && a.id == id
  }

  // ---------------------------------------------------------------------------
  // GET /api/attendance

  /** A record passes the filters of `get_attendance`; an absent filter restricts nothing. */
  predicate Matches(a: Attendance, serviceId: Option<int>, believerId: Option<int>)
  {
    && (serviceId.Some? ==> a.serviceId == serviceId.value)
    && (believerId.Some? ==> a.believerId == believerId.value)
  }

  /** `get_attendance`: the records matching every supplied filter, in table order. */
  function Query(rs: seq<Attendance>, serviceId: Option<int>, believerId: Option<int>): (r: seq<Attendance>)
    ensures forall a :: a in r <==> a in rs && Matches(a, serviceId, believerId)
    ensures |r| <= |rs|
  {
    Seqs.Filter(a => Matches(a, serviceId, believerId), rs)
  }

  /** With neither filter the query returns the whole table. */
  lemma QueryUnfiltered(rs: seq<Attendance>)
    ensures Query(rs, None, None) == rs
  {
    Seqs.FilterKeepsAll(a => Matches(a, None, None), rs);
  }

  /** The query keeps table order: it distributes over a split of the table. */
  lemma QueryAppend(s: seq<Attendance>, t: seq<Attendance>, serviceId: Option<int>, believerId: Option<int>)
    ensures Query(s + t, serviceId, believerId) == Query(s, serviceId, believerId) + Query(t, serviceId, believerId)
  {
    Seqs.FilterAppend(a => Matches(a, serviceId, believerId), s, t);
  }

  /** Under pair uniqueness a (service, believer) query returns at most one record. */
  lemma {:induction false} QueryPairAtMostOne(rs: seq<Attendance>, serviceId: int, believerId: int)
    requires PairUnique(rs)
    ensures |Query(rs, Some(serviceId), Some(believerId))| <= 1
  {
    if rs != [] {
      var tail := rs[1..];
      Seqs.PairwiseTail(DifferentPairs, rs);
      if !Matches(rs[0], Some(serviceId), Some(believerId)) {
        QueryPairAtMostOne(tail, serviceId, believerId);
      } else {
        // any later match would share rs[0]'s pair
        forall x | x in tail
          ensures !Matches(x, Some(serviceId), Some(believerId))
        {
          var k :| 0 <= k < |tail| && tail[k] == x;
          assert DifferentPairs(rs[0], rs[k + 1]);
        }
        Seqs.FilterRejectsAll(a => Matches(a, Some(serviceId), Some(believerId)), tail);
      }
    }
  }

  /** Under pair uniqueness the (service, believer) query is the pair's one record, if any. */
  lemma QueryPairIsTheRecord(rs: seq<Attendance>, serviceId: int, believerId: int)
    requires PairUnique(rs)
    ensures HasPair(rs, serviceId, believerId) <==> Query(rs, Some(serviceId), Some(believerId)) != []
    ensures forall a :: a in rs && a.serviceId == serviceId && a.believerId == believerId
                        ==> Query(rs, Some(serviceId), Some(believerId)) == [a]
  {
    QueryPairAtMostOne(rs, serviceId, believerId);
    var q := Query(rs, Some(serviceId), Some(believerId));
    if HasPair(rs, serviceId, believerId) {
      var a :| a in rs && a.serviceId == serviceId && a.believerId == believerId;
      assert a in q;
    }
    if q != [] {
      assert q[0] in q;
    }
  }

  // ---------------------------------------------------------------------------
  // POST /api/attendance

  /** The largest record id in use, 0 for an empty table. */
  function MaxId(rs: seq<Attendance>): (m: nat)
    ensures forall a :: a in rs ==> a.id <= m
  {
    if rs == [] then 0
    else if rs[0].id >= MaxId(rs[1..]) then rs[0].id
    else MaxId(rs[1..])
  }

  /** The id SQLite gives the next inserted row of a rowid table: one above the
      largest id in use, or 1 for an empty table. */
  function NextId(rs: seq<Attendance>): (id: nat)
    ensures id > 0
    ensures forall a :: a in rs ==> a.id != id
  {
    MaxId(rs) + 1
  }

  /** `create_attendance`: 400 when the pair already has a record, otherwise the
      table gains one record with a fresh id. Neither id is checked against the
      believer or service tables (SQLite does not enforce foreign keys by default). */
  function CreateAttendance(db: Db, believerId: int, serviceId: int): (r: Result<(Db, Attendance), Error>)
    ensures r.Failure? <==> HasPair(db.attendance, serviceId, believerId)
    ensures r.Failure? ==> r.error == AlreadyRecorded
    ensures r.Success? ==>
      var (db', a) := r.value;
      && a.believerId == believerId && a.serviceId == serviceId
      && !HasId(db.attendance, a.id)
      && db'.attendance == db.attendance + [a]
      && db'.believers == db.believers && db'.services == db.services
  {
    var existing := Query(db.attendance, Some(serviceId), Some(believerId));
    if existing != [] then
      assert existing[0] in existing;
      Failure(AlreadyRecorded)
    else
      var a := Attendance(NextId(db.attendance), believerId, serviceId);
      Success((db.(attendance := db.attendance + [a]), a))
  }

  // ---------------------------------------------------------------------------
  // DELETE /api/attendance/<id>

  function WithoutId(rs: seq<Attendance>, id: int): seq<Attendance>
  {
    Seqs.Filter((a: Attendance) => a.id != id, rs)
  }

  /** Removing an id that occurs exactly once shortens the table by one. */
  lemma {:induction false} WithoutIdLength(rs: seq<Attendance>, id: int)
    requires IdsUnique(rs) && HasId(rs, id)
    ensures |WithoutId(rs, id)| == |rs| - 1
  {
    var tail := rs[1..];
    Seqs.PairwiseTail(DifferentIds, rs);
    if rs[0].id == id {
      forall x | x in tail
        ensures x.id != id
      {
        var k :| 0 <= k < |tail| && tail[k] == x;
        assert DifferentIds(rs[0], rs[k + 1]);
      }
      Seqs.FilterKeepsAll((a: Attendance) => a.id != id, tail);
    } else {
      var a :| a in rs && a.id == id;
      assert a in tail;
      WithoutIdLength(tail, id);
    }
  }

  /** `delete_attendance`: 404 for an unknown id, otherwise exactly the record
      with that id leaves the table and everything else stays, in order. */
  function DeleteAttendance(db: Db, id: int): (r: Result<Db, Error>)
    ensures r.Failure? <==> !HasId(db.attendance, id)
    ensures r.Failure? ==> r.error == NotFound
    ensures r.Success? ==>
      && r.value.believers == db.believers && r.value.services == db.services
      && (forall a :: a in r.value.attendance <==> a in db.attendance && a.id != id)
      && (IdsUnique(db.attendance) ==> |r.value.attendance| == |db.attendance| - 1)
  {
    if !HasId(db.attendance, id) then Failure(NotFound)
    else
      var rs := WithoutId(db.attendance, id);
      if IdsUnique(db.attendance) then WithoutIdLength(db.attendance, id); Success(db.(attendance := rs))
      else Success(db.(attendance := rs))
  }

  // ---------------------------------------------------------------------------
  // Service.to_dict and its attendance_count

  /** The number of records passing the filters, counted record by record as a
      relationship collection's `len` or a `count()` query counts them. */
  function Count(rs: seq<Attendance>, serviceId: Option<int>, believerId: Option<int>): (n: nat)
    ensures n == |Query(rs, serviceId, believerId)|
  {
    if rs == [] then 0
    else (if Matches(rs[0], serviceId, believerId) then 1 else 0) + Count(rs[1..], serviceId, believerId)
  }

  datatype ServiceInfo = ServiceInfo(id: int, serviceType: string, serviceDate: int, serviceTime: string, attendanceCount: nat)

  /** `Service.to_dict`: the service's columns and the size of its attendance collection. */
  function ServiceToDict(db: Db, s: Service): (r: ServiceInfo)
    ensures r.id == s.id && r.serviceType == s.serviceType && r.serviceDate == s.serviceDate
    ensures r.attendanceCount == |Query(db.attendance, Some(s.id), None)|
  {
    ServiceInfo(s.id, s.serviceType, s.serviceDate, s.serviceTime, Count(db.attendance, Some(s.id), None))
  }

  /** A successful create adds one to the count of its service and to no other. */
  lemma CreateBumpsCount(db: Db, believerId: int, serviceId: int, s: Service)
    requires CreateAttendance(db, believerId, serviceId).Success?
    ensures var db' := CreateAttendance(db, believerId, serviceId).value.0;
      ServiceToDict(db', s).attendanceCount
        == ServiceToDict(db, s).attendanceCount + (if s.id == serviceId then 1 else 0)
  {
    var (db', a) := CreateAttendance(db, believerId, serviceId).value;
    QueryAppend(db.attendance, [a], Some(s.id), None);
    if s.id != serviceId {
      Seqs.FilterRejectsAll(x => Matches(x, Some(s.id), None), [a]);
    } else {
      assert Query([a], Some(s.id), None) == [a];
    }
  }

  // ---------------------------------------------------------------------------
  // Cascading deletes

  function ServicesWithout(ss: seq<Service>, id: int): seq<Service> { Seqs.Filter((s: Service) => s.id != id, ss) }
  function BelieversWithout(bs: seq<Believer>, id: int): seq<Believer> { Seqs.Filter((b: Believer) => b.id != id, bs) }
  function RecordsNotForService(rs: seq<Attendance>, id: int): seq<Attendance> { Seqs.Filter((a: Attendance) => a.serviceId != id, rs) }
  function RecordsNotForBeliever(rs: seq<Attendance>, id: int): seq<Attendance> { Seqs.Filter((a: Attendance) => a.believerId != id, rs) }

  /** `delete_service`: 404 for an unknown id; otherwise the service goes, with
      every attendance record referencing it and no other record. */
  function DeleteService(db: Db, id: int): (r: Result<Db, Error>)
    ensures r.Failure? <==> forall s :: s in db.services ==> s.id != id
    ensures r.Failure? ==> r.error == NotFound
    ensures r.Success? ==>
      && r.value.believers == db.believers
      && (forall s :: s in r.value.services <==> s in db.services && s.id != id)
      && (forall a :: a in r.value.attendance <==> a in db.attendance && a.serviceId != id)
    ensures r.Success? ==> Query(r.value.attendance, Some(id), None) == []
  {
    if forall s :: s in db.services ==> s.id != id then Failure(NotFound)
    else
      var rs := RecordsNotForService(db.attendance, id);
      Seqs.FilterRejectsAll((a: Attendance) => Matches(a, Some(id), None), rs);
      Success(Db(db.believers, ServicesWithout(db.services, id), rs))
  }

  /** `delete_believer`: 404 for an unknown id; otherwise the believer goes, with
      every attendance record referencing them and no other record. */
  function DeleteBeliever(db: Db, id: int): (r: Result<Db, Error>)
    ensures r.Failure? <==> forall b :: b in db.believers ==> b.id != id
    ensures r.Failure? ==> r.error == NotFound
    ensures r.Success? ==>
      && r.value.services == db.services
      && (forall b :: b in r.value.believers <==> b in db.believers && b.id != id)
      && (forall a :: a in r.value.attendance <==> a in db.attendance && a.believerId != id)
    ensures r.Success? ==> Query(r.value.attendance, None, Some(id)) == []
  {
    if forall b :: b in db.believers ==> b.id != id then Failure(NotFound)
    else
      var rs := RecordsNotForBeliever(db.attendance, id);
      Seqs.FilterRejectsAll((a: Attendance) => Matches(a, None, Some(id)), rs);
      Success(Db(BelieversWithout(db.believers, id), db.services, rs))
  }

  // ---------------------------------------------------------------------------
  // GET /api/believers and GET /api/believers/<id>

  /** `get_believers`: the active believers, in table order. */
  function ActiveBelievers(db: Db): (r: seq<Believer>)
    ensures forall b :: b in r <==> b in db.believers && b.isActive
    ensures Seqs.Pairwise(DifferentBelievers, db.believers) ==> Seqs.Pairwise(DifferentBelievers, r)
  {
    var r := Seqs.Filter((b: Believer) => b.isActive, db.believers);
    if Seqs.Pairwise(DifferentBelievers, db.believers) then
      Seqs.FilterPairwise(DifferentBelievers, (b: Believer) => b.isActive, db.believers); r
    else r
  }

  /** The type of the service with the given id: the first such row, if any. */
  function TypeOfService(ss: seq<Service>, id: int): Option<string>
  {
    if ss == [] then None
    else if ss[0].id == id then Some(ss[0].serviceType)
    else TypeOfService(ss[1..], id)
  }

  /** Rows of the service table that the inner join pairs with a record of `serviceId` and that have type `t`. */
  function JoinedRows(ss: seq<Service>, serviceId: int, t: string): nat
  {
    if ss == [] then 0
    else (if ss[0].id == serviceId && ss[0].serviceType == t then 1 else 0) + JoinedRows(ss[1..], serviceId, t)
  }

  /** `query(Attendance).join(Service).filter(believer_id == id, service_type == t).count()`. */
  function JoinCount(rs: seq<Attendance>, ss: seq<Service>, believerId: int, t: string): nat
  {
    if rs == [] then 0
    else (if rs[0].believerId == believerId then JoinedRows(ss, rs[0].serviceId, t) else 0)
         + JoinCount(rs[1..], ss, believerId, t)
  }

  datatype Stats = Stats(total: nat, sunday: nat, midweek: nat)

  /** The `stats` part of `get_believer`: 404 for an unknown believer (active or
      not), otherwise all of the believer's records and the Sunday and midweek
      ones among them. With unique service ids each typed count is the number
      of the believer's records whose service has that type, so the two typed
      counts never exceed the total. */
  function BelieverStats(db: Db, id: int): (r: Result<Stats, Error>)
    ensures r.Failure? <==> forall b :: b in db.believers ==> b.id != id
    ensures r.Failure? ==> r.error == NotFound
    ensures r.Success? ==> r.value.total == |Query(db.attendance, None, Some(id))|
    ensures r.Success? && Seqs.Pairwise(DifferentServices, db.services) ==>
      && r.value.sunday == |TypedRecords(db.attendance, db.services, id, SundayType)|
      && r.value.midweek == |TypedRecords(db.attendance, db.services, id, MidweekType)|
      && r.value.sunday + r.value.midweek <= r.value.total
  {
    if forall b :: b in db.believers ==> b.id != id then Failure(NotFound)
    else
      var st := Stats(Count(db.attendance, None, Some(id)),
                      JoinCount(db.attendance, db.services, id, SundayType),
                      JoinCount(db.attendance, db.services, id, MidweekType));
      if Seqs.Pairwise(DifferentServices, db.services) then
        JoinCountIsTypedRecords(db.attendance, db.services, id, SundayType);
        JoinCountIsTypedRecords(db.attendance, db.services, id, MidweekType);
        TypedRecordsBounded(db.attendance, db.services, id);
        Success(st)
      else Success(st)
  }

  /** With unique service ids the join pairs a record with its service's row only. */
  lemma {:induction false} JoinedRowsIsLookup(ss: seq<Service>, serviceId: int, t: string)
    requires Seqs.Pairwise(DifferentServices, ss)
    ensures JoinedRows(ss, serviceId, t) == if TypeOfService(ss, serviceId) == Some(t) then 1 else 0
  {
    if ss != [] {
      var tail := ss[1..];
      Seqs.PairwiseTail(DifferentServices, ss);
      if ss[0].id == serviceId {
        forall k | 0 <= k < |tail|
          ensures tail[k].id != serviceId
        {
          assert DifferentServices(ss[0], ss[k + 1]);
        }
        NoJoinedRows(tail, serviceId, t);
      } else {
        JoinedRowsIsLookup(tail, serviceId, t);
      }
    }
  }

  lemma {:induction false} NoJoinedRows(ss: seq<Service>, serviceId: int, t: string)
    requires forall k :: 0 <= k < |ss| ==> ss[k].id != serviceId
    ensures JoinedRows(ss, serviceId, t) == 0
  {
    if ss != [] {
      NoJoinedRows(ss[1..], serviceId, t);
    }
  }

  /** A believer's records whose service exists and has type `t`: the reference
      meaning of the typed statistics. */
  function TypedRecords(rs: seq<Attendance>, ss: seq<Service>, believerId: int, t: string): seq<Attendance>
  {
    Seqs.Filter((a: Attendance) => a.believerId == believerId && TypeOfService(ss, a.serviceId) == Some(t), rs)
  }

  lemma {:induction false} JoinCountIsTypedRecords(rs: seq<Attendance>, ss: seq<Service>, believerId: int, t: string)
    requires Seqs.Pairwise(DifferentServices, ss)
    ensures JoinCount(rs, ss, believerId, t) == |TypedRecords(rs, ss, believerId, t)|
  {
    if rs != [] {
      JoinedRowsIsLookup(ss, rs[0].serviceId, t);
      JoinCountIsTypedRecords(rs[1..], ss, believerId, t);
    }
  }

  lemma {:induction false} TypedRecordsBounded(rs: seq<Attendance>, ss: seq<Service>, believerId: int)
    ensures |TypedRecords(rs, ss, believerId, SundayType)| + |TypedRecords(rs, ss, believerId, MidweekType)|
            <= |Query(rs, None, Some(believerId))|
  {
    if rs != [] {
      TypedRecordsBounded(rs[1..], ss, believerId);
    }
  }

  // ---------------------------------------------------------------------------
  // The integrity invariant across requests

  /** The requests that change the attendance table. */
  datatype Request =
    | CreateRequest(believerId: int, serviceId: int)
    | DeleteRequest(id: int)
    | DeleteServiceRequest(serviceId: int)
    | DeleteBelieverRequest(believerId: int)

  /** The database after a request; an error response changes nothing. */
  function Handle(db: Db, req: Request): Db
  {
    match req
    case CreateRequest(b, s) =>
      (match CreateAttendance(db, b, s) case Success((db', _)) => db' case Failure(_) => db)
    case DeleteRequest(id) =>
      (match DeleteAttendance(db, id) case Success(db') => db' case Failure(_) => db)
    case DeleteServiceRequest(id) =>
      (match DeleteService(db, id) case Success(db') => db' case Failure(_) => db)
    case DeleteBelieverRequest(id) =>
      (match DeleteBeliever(db, id) case Success(db') => db' case Failure(_) => db)
  }

  function Replay(db: Db, reqs: seq<Request>): Db
    decreases reqs
  {
    if reqs == [] then db else Replay(Handle(db, reqs[0]), reqs[1..])
  }

  /** Every request keeps the tables' keys unique and at most one record per pair. */
  lemma HandlePreservesWellFormed(db: Db, req: Request)
    requires WellFormed(db)
    ensures WellFormed(Handle(db, req))
  {
    match req
    case CreateRequest(b, s) =>
      if CreateAttendance(db, b, s).Success? {
        var a := CreateAttendance(db, b, s).value.1;
        Seqs.PairwiseAppend(DifferentPairs, db.attendance, a);
        Seqs.PairwiseAppend(DifferentIds, db.attendance, a);
      }
    case DeleteRequest(id) =>
      Seqs.FilterPairwise(DifferentPairs, (a: Attendance) => a.id != id, db.attendance);
      Seqs.FilterPairwise(DifferentIds, (a: Attendance) => a.id != id, db.attendance);
    case DeleteServiceRequest(id) =>
      Seqs.FilterPairwise(DifferentServices, (s: Service) => s.id != id, db.services);
      Seqs.FilterPairwise(DifferentPairs, (a: Attendance) => a.serviceId != id, db.attendance);
      Seqs.FilterPairwise(DifferentIds, (a: Attendance) => a.serviceId != id, db.attendance);
    case DeleteBelieverRequest(id) =>
      Seqs.FilterPairwise(DifferentBelievers, (b: Believer) => b.id != id, db.believers);
      Seqs.FilterPairwise(DifferentPairs, (a: Attendance) => a.believerId != id, db.attendance);
      Seqs.FilterPairwise(DifferentIds, (a: Attendance) => a.believerId != id, db.attendance);
  }

  /** If records only ever enter through `create_attendance`, no two records share a pair. */
  lemma {:induction false} ReplayPreservesWellFormed(db: Db, reqs: seq<Request>)
    requires WellFormed(db)
    ensures WellFormed(Replay(db, reqs))
    ensures PairUnique(Replay(db, reqs).attendance)
    decreases reqs
  {
    if reqs != [] {
      HandlePreservesWellFormed(db, reqs[0]);
      ReplayPreservesWellFormed(Handle(db, reqs[0]), reqs[1..]);
    }
  }
}

=== FILE: wrappers.dfy ===
/** Failure-carrying datatypes shared by the model: an optional value (an
    absent query-string argument, an empty select box) and the outcome of a
    server operation that may answer with an HTTP error status. */
module Wrappers {

  datatype Option<+T> = None | Some(value: T)

  datatype Result<+R, +E> = Success(value: R) | Failure(error: E)
}
